=== FILE: README.md ===
# Greek learning bot: quiz pipeline model

A Dafny model of the quiz pipeline of a Telegram bot that drills Greek
vocabulary with Russian translations. The SQLite tables it reads and writes
are immutable Dafny values: `words` is a `seq<Word>`, `user_stats` a
`seq<StatRow>` whose UNIQUE(user_id, word_id) key is a well-formedness
predicate (`StatsService.FindStat` is its map view), `users` a
`map<UserId, User>` keyed by its primary key, and each user's
`current_quiz` slot a `map<UserId, Quiz>` entry.

- `Schema` (database/models.py): the CHECK enumerations with their text
  forms, one datatype per row, the column defaults, and the uniqueness keys.
- `Sampling`: the randomness. SQLite's `ORDER BY RANDOM() LIMIT n` and
  Python's `random.shuffle` are both `Draw`, driven by an explicit sequence of
  draws. Every choice of draws gives a duplicate-free selection of the
  required size (`Draw`, `Select`, `Shuffle`). Every such selection, in any
  order, comes from some draws (`DrawReachesEverySelection`). So the model
  admits exactly the outcomes the code can produce and assumes no
  distribution.
- `WrongAnswers` (utils/wrong_answers.py): the two distractor filters and
  the dispatch on the word type.
- `QuizService` (services/quiz_service.py): word selection, quiz
  composition in both directions, the shuffle, `correct_index`, answer
  checking.
- `StatsService` (services/stats_service.py): the insert-or-increment
  counter update and the per-user aggregate.
- `QuizHandlers` (handlers/quiz.py): `/quiz`, `/quiz_session`, `/stop` and
  the answer callback as pure transitions over the state, returning the
  replies they send without their rendering. `Run` folds any sequence of
  these events. The state invariant `Valid` holds after every event.

Behaviour of the code that the model reproduces:

- Word selection is uniform (`SELECT * FROM words ORDER BY RANDOM() LIMIT 1`).
  No difficulty weights are computed or used.
- The non-phrase distractor filter excludes by id only. Its texts may repeat
  each other or the correct text (`ForWordMayRepeatCorrectText`).
- An answer button does not identify its quiz. It is judged against whatever
  quiz the slot holds at that moment (`AnswerJudgedAgainstLatestQuiz`).
- `/quiz_session` sets the session flag before it builds the first quiz. If
  that quiz cannot be built, the flag stays set and the slot is untouched:
  a quiz stored there earlier survives (`FailedSessionStartStaysActive`).
  When a later quiz of a session cannot be built, the flag stays set and the
  slot is left empty (`AnswerAdvancesSession`). Only `/stop` clears the
  flag.
- `/stop` clears the flag whether or not a session is active, and reports
  the user's aggregate over all their `user_stats` rows.

## Model

| member | source | states |
|---|---|---|
| Schema.ParseWordType | database/models.py:13 | a text the `word_type` CHECK admits parses to the tag whose column text it is |
| Schema.WordTypeRoundTrip | database/models.py:13 | each of the eight word types' column text parses back to that type |
| Schema.ParseChatType | database/models.py:58 | a text the `chat_type` CHECK admits parses to the tag whose column text it is |
| Schema.ChatTypeRoundTrip | database/models.py:58 | each of private, group, supergroup parses back from its text |
| Schema.ParseTaskType | database/models.py:61 | a text the `task_type` CHECK admits parses to the tag whose column text it is |
| Schema.TaskTypeRoundTrip | database/models.py:61 | each of conjugation, translation, vocabulary, custom parses back from its text |
| Schema.InsertedUser | database/models.py:22-31 | a users row inserted naming only name columns and the flag has auto quiz on, 5 questions, 15 minutes, no last auto quiz, joined now |
| Schema.DefaultUser | database/models.py:22-31 | a users row inserted naming only the name columns has no active session (quiz_session_active defaults to 0) and every setting at its default |
| Schema.DefaultStat | database/models.py:42-45 | a user_stats row built from defaults alone has both counters 0, multiplier 1.0, and satisfies 0 <= correct <= total |
| Schema.InsertedChatContext | database/models.py:55-65 | a chat_contexts row inserted naming only its required columns is enabled, posts every 30 minutes and has never posted |
| Schema.NullTopicsNeverCollide | database/models.py:65 | two chat contexts without a topic never violate UNIQUE(chat_id, topic_id), because SQLite treats NULLs as distinct |
| Schema.UniqueWordIds | database/models.py:10 | the primary key of words: no two rows share an id; GeneratedQuizHasFourOptions and PhrasePoolWithinWordPool rely on it and Handle keeps it |
| Schema.UniqueStatKeys | database/models.py:48 | UNIQUE(user_id, word_id): no two user_stats rows share a key; RecordAnswerPreservesWellFormed and CountersStayConsistent keep it |
| Schema.UniqueChatContexts | database/models.py:65 | UNIQUE(chat_id, topic_id), where only rows that both carry a topic can collide; NullTopicsNeverCollide states the NULL case |
| Sampling.Filter | utils/wrong_answers.py:21-23 | the rows a WHERE admits: exactly the table rows satisfying the condition, a sub-multiset of the table |
| Sampling.FilterMonotone | services/quiz_service.py:76-83 | a condition implied by another admits at least as many rows |
| Sampling.RowCount | utils/wrong_answers.py:25 | LIMIT lets through at most the available rows and at most a non-negative limit, and fewer only when the rows run out |
| Sampling.Draw | services/quiz_service.py:25 | drawing n rows without replacement yields min(n, pool size) rows, a sub-multiset of the pool |
| Sampling.Select | utils/wrong_answers.py:21-27 | ORDER BY RANDOM() LIMIT returns the limited number of qualifying rows, each qualifying, none repeated beyond its multiplicity |
| Sampling.Shuffle | services/quiz_service.py:87 | random.shuffle returns a permutation: same length, same multiset |
| Sampling.DrawReachesEverySelection | services/quiz_service.py:25 | every duplicate-free selection of the pool, in any order, is produced by some draws |
| Sampling.ShuffleReachesEveryPermutation | services/quiz_service.py:87 | every permutation of the list is a possible shuffle outcome |
| Sampling.SelectReachesEverySelection | utils/wrong_answers.py:21-27 | every duplicate-free choice of qualifying rows of the limited size is a possible query result |
| WrongAnswers.OtherWordOfType | utils/wrong_answers.py:22-23 | the non-phrase WHERE: another id, the same type; ForWord states its results satisfy it |
| WrongAnswers.OtherPhrase | utils/wrong_answers.py:45-46 | the phrase WHERE: another russian text, type phrase; ForPhrase states its results satisfy it |
| WrongAnswers.ForWord | utils/wrong_answers.py:9-28 | returns min(count, eligible) texts, the russian texts of eligible rows drawn without replacement, each row with another id and the same type |
| WrongAnswers.ForPhrase | utils/wrong_answers.py:31-51 | returns min(count, eligible) texts, the russian texts of phrase rows drawn without replacement, each with a different text, so never the correct text |
| WrongAnswers.Generate | utils/wrong_answers.py:54-70 | the dispatch: a phrase gets texts of other phrases and never the correct text, every other type texts of other rows of that type; never more than a non-negative count |
| WrongAnswers.GenerateLength | utils/wrong_answers.py:54-70 | the dispatch returns exactly min(count, eligible rows), so a short list means the pool was too small |
| WrongAnswers.PhrasePoolWithinWordPool | utils/wrong_answers.py:44-49 | with unique ids, the phrase filter for a phrase row admits no more rows than the id/type filter for the same row |
| WrongAnswers.ForWordReachesEverySelection | utils/wrong_answers.py:21-28 | every duplicate-free choice of eligible same-type rows is a possible distractor list |
| WrongAnswers.ForPhraseReachesEverySelection | utils/wrong_answers.py:44-51 | every duplicate-free choice of eligible phrases is a possible distractor list |
| WrongAnswers.ForWordMayRepeatCorrectText | utils/wrong_answers.py:22-23 | a same-type word sharing the correct russian text is offered as a distractor |
| QuizService.SelectRandomWord | services/quiz_service.py:25-37 | None exactly when the table is empty, otherwise the id, greek, russian and type of a table row, copied unchanged |
| QuizService.SelectRandomWordReachesEveryRow | services/quiz_service.py:25 | every row of the table can be the selected word |
| QuizService.IndexOf | services/quiz_service.py:90 | list.index returns the first position holding the value |
| QuizService.GreekWrongAnswers | services/quiz_service.py:76-83 | the RU to GR refetch returns min(3, eligible) texts, the greek texts of eligible rows drawn without replacement, each another word of the same type |
| QuizService.GreekWrongAnswersReachEverySelection | services/quiz_service.py:76-83 | every duplicate-free choice of eligible rows of the right size is a possible refetch result |
| QuizService.Compose | services/quiz_service.py:69-99 | the options are a permutation of the correct text plus the wrong ones; correct_index is the first index of the correct text; id, type and direction are carried over |
| QuizService.GenerateQuiz | services/quiz_service.py:39-99 | a built quiz is about a row of the table (its id and type) and its correct_index points into its options; the other properties are in the lemmas below |
| QuizService.CheckAnswer | services/quiz_service.py:101-112 | an accepted index lies among the options and shows the recorded correct text; an index outside the options is rejected |
| QuizService.GenerateQuizFailsWhen | services/quiz_service.py:50-64 | generation fails exactly when the table is empty or fewer than 3 wrong answers come back |
| QuizService.GeneratedQuizFollowsDirection | services/quiz_service.py:66-99 | GR to RU asks greek with russian correct; RU to GR asks russian with greek correct and refetched greek distractors; the quiz carries the row's id and type |
| QuizService.GeneratedQuizHasFourOptions | services/quiz_service.py:55-87 | with unique ids and an unchanged table, every generated quiz has exactly 4 options in both directions |
| QuizService.GreekRefetchSuffices | services/quiz_service.py:76-83 | when the first distractor query found 3 rows, the greek refetch for the same word finds 3 too |
| QuizService.CheckAnswerByText | services/quiz_service.py:101-112 | an index is accepted iff it holds the correct text and no earlier option does, so a later duplicate of the correct text is rejected |
| QuizService.GeneratedQuizRoundTrip | services/quiz_service.py:86-112 | a generated quiz's index is in range, and check_answer accepts that index and no other |
| StatsService.FindIndex | services/stats_service.py:23-28 | the lookup finds the first row with the pair's key, or reports that no row has it |
| StatsService.RecordAnswer | services/stats_service.py:13-50 | first answer inserts correct = 0 or 1, total = 1, multiplier 1.0; later answers add 1 to total and 0 or 1 to correct; last_asked is now; other pairs' rows unchanged |
| StatsService.IncrementedTotals | services/stats_service.py:26-40 | the UPDATE branch adds one question, and one correct answer iff correct, to the row owner's sums, and leaves every other user's sums alone |
| StatsService.InsertedTotals | services/stats_service.py:41-50 | the INSERT branch does the same for the new row's user, who then has rows |
| StatsService.RecordAnswerPreservesWellFormed | services/stats_service.py:26-50 | an answer keeps the pair key unique and 0 <= correct <= total on every row |
| StatsService.RecordAllPreservesWellFormed | services/stats_service.py:13-50 | the counter invariant holds after any sequence of answers |
| StatsService.Totals | services/stats_service.py:62-68 | the sums over one user's rows; zero with no rows; 0 <= correct sum <= total sum when every row is consistent |
| StatsService.GetUserStats | services/stats_service.py:52-86 | (0, 0, 0.0) with no rows; otherwise the two sums and a rate with rate * total = correct * 100, in [0, 100] given the counter invariant |
| StatsService.Percentage | services/stats_service.py:80 | the exact ratio correct / total * 100, within [0, 100] when 0 <= correct <= total |
| StatsService.RecordAnswerUpdatesUserStats | services/stats_service.py:13-86 | after an answer the user's aggregate counts one more question and one more correct answer iff it was correct; other users' aggregates are unchanged |
| QuizHandlers.SessionActive | handlers/quiz.py:59-62 | a session is active when the users row exists and its flag is set; SessionCannotStartTwice, StopCommand and AnswerAdvancesSession state how the handlers read and write it |
| QuizHandlers.Valid | handlers/quiz.py:18-165 | the state invariant: unique word ids, well-formed stats, every stored quiz's index in range; Handle and Run keep it |
| QuizHandlers.QuizCommand | handlers/quiz.py:18-33 | /quiz stores the new quiz in the sender's slot, replacing any previous one; on failure the whole state is unchanged |
| QuizHandlers.QuizSessionCommand | handlers/quiz.py:54-83 | with the flag set nothing changes and no question is sent; otherwise the session starts as SessionStart states |
| QuizHandlers.SessionStart | handlers/quiz.py:70-83 | the users table is the one Enrol leaves, words and stats are unchanged, and two replies go out: the greeting, then the new quiz (stored in the sender's slot) or the not-enough-words notice (slot untouched) |
| QuizHandlers.Enrol | handlers/quiz.py:70-73 | INSERT OR REPLACE of the sender's users row: flag set, name columns from the sender, every setting at its default, joined now; other rows, words, stats and slots unchanged |
| QuizHandlers.EnrolResetsToDefaultRow | handlers/quiz.py:70-73 | the row /quiz_session writes is the fresh default row with only the flag set, so earlier settings are lost |
| QuizHandlers.StopCommand | handlers/quiz.py:86-97 | /stop clears the flag of an existing row and changes nothing else in it, touches no other row, no slot and no stats, and reports the aggregate |
| QuizHandlers.AnswerCallback | handlers/quiz.py:110-165 | no stored quiz: error and no change; otherwise exactly one stat update for the stored quiz's word with is_correct = check_answer, and a verdict with the updated aggregate; every other user's quiz slot is left as it was |
| QuizHandlers.Continue | handlers/quiz.py:151-165 | after an answer the slot is empty, except that in a session with a buildable quiz the new quiz is stored and sent; other users' slots unchanged |
| QuizHandlers.SessionCannotStartTwice | handlers/quiz.py:59-73 | a second /quiz_session after a successful start changes nothing and replies that a session is active |
| QuizHandlers.FailedSessionStartStaysActive | handlers/quiz.py:70-83 | when the first quiz of a session cannot be built, the flag stays set and the slot is untouched |
| QuizHandlers.SuccessfulSessionStartAsksFirstQuestion | handlers/quiz.py:70-83 | when the first quiz can be built, the session is active, the quiz is stored and sent after the greeting, and its index is in range |
| QuizHandlers.StopThenStartAccepted | handlers/quiz.py:91-94 | after /stop a new /quiz_session is accepted |
| QuizHandlers.AnswerJudgedAgainstLatestQuiz | handlers/quiz.py:118-130 | an answer after /quiz stored q is judged against q and counted for q's word; answering q's index is correct |
| QuizHandlers.AnswerCountsOnce | handlers/quiz.py:127-140 | an answer adds exactly one question to the sender's aggregate, and leaves other users' aggregates alone |
| QuizHandlers.AnswerAdvancesSession | handlers/quiz.py:151-165 | the flag is unchanged by an answer; the slot is non-empty afterwards iff a session is active and the next quiz was built, and then holds that quiz |
| QuizHandlers.Handle | handlers/quiz.py:18-165 | every handler event keeps unique word ids, the stats invariant and well-formed stored quizzes |
| QuizHandlers.Run | handlers/quiz.py:18-165 | the invariant holds after any sequence of handler events |
| QuizHandlers.CountersStayConsistent | handlers/quiz.py:127-130 | whatever events arrive, every user_stats row keeps 0 <= correct <= total and a unique key |

## Left out

- Difficulty weighting and the periodic scheduler. The weighting constants
  and the default group interval in config.py are never read by the quiz
  code. No weighting model, auto-delivery or group posting is invented.
- The group_tasks and admins tables. No modelled operation reads them.
- database/db.py is not part of this model. The connection, commit and
  cursor plumbing is replaced by the table values. The fixture data
  `add_test_data` is left out too.
- bot.py (bootstrap, handler registration, polling) and config.py
  (environment loading, token check) are not part of this model.
- Telegram rendering: message texts, emoji, inline keyboards and the
  one-second delay before the next session question. Replies keep only
  their content.
- Parsing of the callback data `answer_<i>`. The answer index comes in as
  an integer.
- Randomness distributions. `random.choice`, `random.shuffle` and
  `ORDER BY RANDOM()` are explicit draw parameters (`QuizService.QuizDraws`).
- `datetime.now()` and CURRENT_TIMESTAMP. They are an opaque `now`
  parameter.
- The surrogate `id` column of user_stats. Nothing reads it.
- Partial failure. Each handler is one atomic step of the model. In the
  code an exception from a Telegram call or a database call stops a handler
  part-way and keeps the writes made before it. If `edit_message_text`
  (handlers/quiz.py:148) raises after `record_answer` (handlers/quiz.py:130),
  the answer is counted but `current_quiz` is never cleared
  (handlers/quiz.py:151). `/quiz_session` sets the flag
  (handlers/quiz.py:70-73) before it sends any reply.
- Concurrency. The read-then-write of `record_answer` across connections is
  modelled sequentially.
- StatsService.GetUserStats: does not model the rounding of `success_rate`
  to one decimal. It states bounds and the exact ratio instead.
- StatsService.RecordAnswer: updates only the first row carrying the key.
  SQL's UPDATE would rewrite every such row. The two agree on every table
  satisfying UNIQUE(user_id, word_id), which every modelled operation
  preserves.

=== FILE: quiz_handlers.dfy ===
/**
 The bot's quiz commands as transitions of an explicit state: the database
 tables the handlers touch, plus each user's `current_quiz` slot (the
 per-user context storage of the chat library, a map from user id that
 holds no entry when the slot is empty). Each handler returns the new state
 and the messages it sends, stripped of their rendering.
 */
module QuizHandlers {
  import opened Wrappers
  import opened Schema
  import opened QuizService
  import opened StatsService

  datatype BotState = BotState(
    words: seq<Word>,
    users: map<UserId, User>,
    stats: seq<StatRow>,
    currentQuiz: map<UserId, Quiz>)

  /** The chat user an update comes from. */
  datatype Sender = Sender(id: UserId, username: Option<string>, firstName: Option<string>)

  /** What a handler tells the user. */
  datatype Reply =
    | NotEnoughWords
    | Question(quiz: Quiz)
    | SessionAlreadyActive
    | SessionStarted
    | SessionStopped(summary: UserStats)
    | QuizDataMissing
    | Verdict(isCorrect: bool, correctAnswer: Option<string>, summary: UserStats)

  datatype Step = Step(state: BotState, replies: seq<Reply>)

  /** `SELECT quiz_session_active FROM users WHERE user_id = ?` is a row with the flag set. */
  predicate SessionActive(s: BotState, userId: UserId) {
    userId in s.users && s.users[userId].quizSessionActive
  }

  /** What the handlers keep true of the state. */
  predicate Valid(s: BotState) {
    && UniqueWordIds(s.words)
    && StatsWellFormed(s.stats)
    && forall u :: u in s.currentQuiz ==> WellFormedQuiz(s.currentQuiz[u])
  }

  /** `/quiz`: store a fresh quiz in the sender's slot, or leave everything as it was. */
  function QuizCommand(s: BotState, sender: Sender, d: QuizDraws): (r: Step)
    ensures r.state.words == s.words && r.state.users == s.users && r.state.stats == s.stats
    ensures GenerateQuiz(s.words, d).None? ==> r.state == s && r.replies == [NotEnoughWords]
    ensures GenerateQuiz(s.words, d).Some? ==>
      var q := GenerateQuiz(s.words, d).value;
      && r.replies == [Question(q)]
      && r.state.currentQuiz == s.currentQuiz[sender.id := q]
  {
    match GenerateQuiz(s.words, d)
    case None => Step(s, [NotEnoughWords])
    case Some(q) => Step(s.(currentQuiz := s.currentQuiz[sender.id := q]), [Question(q)])
  }

  /**
   `/quiz_session`: refuse when a session is already active; otherwise
   start one and run `/quiz`.
   */
  function QuizSessionCommand(s: BotState, sender: Sender, now: Timestamp, d: QuizDraws): (r: Step)
    ensures SessionActive(s, sender.id) ==> r == Step(s, [SessionAlreadyActive])
    ensures !SessionActive(s, sender.id) ==> r == SessionStart(s, sender, now, d)
  {
    if SessionActive(s, sender.id) then Step(s, [SessionAlreadyActive])
    else SessionStart(s, sender, now, d)
  }

  /**
   The accepted branch of `/quiz_session`: enrol the sender, then run
   `/quiz` and send its reply after the greeting.
   */
  function SessionStart(s: BotState, sender: Sender, now: Timestamp, d: QuizDraws): (r: Step)
    ensures r.state.users == Enrol(s, sender, now).users
    ensures r.state.words == s.words && r.state.stats == s.stats
    ensures |r.replies| == 2 && r.replies[0] == SessionStarted
    ensures GenerateQuiz(s.words, d).None? ==>
      r.state.currentQuiz == s.currentQuiz && r.replies[1] == NotEnoughWords
    ensures GenerateQuiz(s.words, d).Some? ==>
      var q := GenerateQuiz(s.words, d).value;
      r.state.currentQuiz == s.currentQuiz[sender.id := q] && r.replies[1] == Question(q)
  {
    var first := QuizCommand(Enrol(s, sender, now), sender, d);
    Step(first.state, [SessionStarted] + first.replies)
  }

  /**
   The INSERT OR REPLACE of `/quiz_session`: the sender's `users` row is
   rewritten with the flag set, so every other column takes its default
   again; no other row or table changes.
   */
  function Enrol(s: BotState, sender: Sender, now: Timestamp): (r: BotState)
    ensures SessionActive(r, sender.id)
    ensures UserHasDefaults(r.users[sender.id])
    ensures r.users[sender.id].username == sender.username
    ensures r.users[sender.id].firstName == sender.firstName
    ensures r.users[sender.id].joinedAt == now
    ensures r.words == s.words && r.stats == s.stats && r.currentQuiz == s.currentQuiz
    ensures r.users.Keys == s.users.Keys + {sender.id}
    ensures forall u :: u in s.users && u != sender.id ==> r.users[u] == s.users[u]
  {
    s.(users := s.users[sender.id := InsertedUser(sender.username, sender.firstName, true, now)])
  }

  /**
   The row `/quiz_session` writes is the row a plain insert of the sender
   would get, except that its flag is set: whatever settings the user had
   before are lost.
   */
  lemma EnrolResetsToDefaultRow(s: BotState, sender: Sender, now: Timestamp)
    ensures Enrol(s, sender, now).users[sender.id]
         == DefaultUser(sender.username, sender.firstName, now).(quizSessionActive := true)
  {
  }

  /** `/stop`: clear the flag if the sender has a row, and report the aggregate. */
  function StopCommand(s: BotState, sender: Sender): (r: Step)
    ensures !SessionActive(r.state, sender.id)
    ensures r.state.currentQuiz == s.currentQuiz
    ensures r.state.words == s.words && r.state.stats == s.stats
    ensures r.state.users.Keys == s.users.Keys
    ensures forall u :: u in s.users && u != sender.id ==> r.state.users[u] == s.users[u]
    ensures sender.id in s.users ==> r.state.users[sender.id] == s.users[sender.id].(quizSessionActive := false)
    ensures r.replies == [SessionStopped(GetUserStats(s.stats, sender.id))]
  {
    var users := if sender.id in s.users
      then s.users[sender.id := s.users[sender.id].(quizSessionActive := false)]
      else s.users;
    Step(s.(users := users), [SessionStopped(GetUserStats(s.stats, sender.id))])
  }

  /**
   An answer button: judge the index against the stored quiz, record it,
   empty the slot, and in a session store and send the next quiz.
   */
  function AnswerCallback(s: BotState, sender: Sender, answerIndex: int, now: Timestamp,
                          d: QuizDraws): (r: Step)
    requires sender.id in s.currentQuiz ==> WellFormedQuiz(s.currentQuiz[sender.id])
    ensures sender.id !in s.currentQuiz ==> r == Step(s, [QuizDataMissing])
    ensures sender.id in s.currentQuiz ==>
      var q := s.currentQuiz[sender.id];
      var isCorrect := CheckAnswer(q, answerIndex);
      && r.state.stats == RecordAnswer(s.stats, sender.id, q.wordId, isCorrect, now)
      && r.state.words == s.words && r.state.users == s.users
      && |r.replies| >= 1
      && r.replies[0] == Verdict(isCorrect, if isCorrect then None else Some(q.answers[q.correctIndex]),
                                 GetUserStats(r.state.stats, sender.id))
    ensures forall u :: u != sender.id ==>
      && (u in r.state.currentQuiz <==> u in s.currentQuiz)
      && (u in s.currentQuiz ==> r.state.currentQuiz[u] == s.currentQuiz[u])
  {
    if sender.id !in s.currentQuiz then Step(s, [QuizDataMissing])
    else
      var q := s.currentQuiz[sender.id];
      var isCorrect := CheckAnswer(q, answerIndex);
      var stats := RecordAnswer(s.stats, sender.id, q.wordId, isCorrect, now);
      var verdict := Verdict(isCorrect, if isCorrect then None else Some(q.answers[q.correctIndex]),
                             GetUserStats(stats, sender.id));
      var answered := s.(stats := stats, currentQuiz := s.currentQuiz - {sender.id});
      Continue(answered, sender.id, verdict, d)
  }

  /**
   The end of an answer: outside a session the slot stays empty; in a
   session the next quiz is stored and sent, or, when none can be built,
   the slot stays empty and the flag stays set.
   */
  function Continue(s: BotState, userId: UserId, verdict: Reply, d: QuizDraws): (r: Step)
    requires userId !in s.currentQuiz
    ensures r.state.words == s.words && r.state.users == s.users && r.state.stats == s.stats
    ensures |r.replies| >= 1 && r.replies[0] == verdict
    ensures forall u :: u != userId ==>
      (u in r.state.currentQuiz <==> u in s.currentQuiz)
      && (u in s.currentQuiz ==> r.state.currentQuiz[u] == s.currentQuiz[u])
    ensures !SessionActive(s, userId) || GenerateQuiz(s.words, d).None? ==>
      userId !in r.state.currentQuiz && r.replies == [verdict]
    ensures SessionActive(s, userId) && GenerateQuiz(s.words, d).Some? ==>
      var next := GenerateQuiz(s.words, d).value;
      && r.state.currentQuiz == s.currentQuiz[userId := next]
      && r.replies == [verdict, Question(next)]
  {
    if !SessionActive(s, userId) then Step(s, [verdict])
    else match GenerateQuiz(s.words, d)
      case None => Step(s, [verdict])
      case Some(next) => Step(s.(currentQuiz := s.currentQuiz[userId := next]), [verdict, Question(next)])
  }

  // ---------------------------------------------------------------------------
  // Properties across handler calls
  // ---------------------------------------------------------------------------

  /** A second `/quiz_session` right after a successful one changes nothing. */
  lemma SessionCannotStartTwice(s: BotState, sender: Sender, now: Timestamp, d: QuizDraws,
                                later: Timestamp, d': QuizDraws)
    requires !SessionActive(s, sender.id)
    ensures var first := QuizSessionCommand(s, sender, now, d).state;
      QuizSessionCommand(first, sender, later, d') == Step(first, [SessionAlreadyActive])
  {
  }

  /**
   A session whose first quiz cannot be built stays active and its slot is
   untouched, so a quiz stored there earlier by `/quiz` survives; the next
   `/quiz_session` is refused until `/stop`.
   */
  lemma FailedSessionStartStaysActive(s: BotState, sender: Sender, now: Timestamp, d: QuizDraws)
    requires !SessionActive(s, sender.id) && GenerateQuiz(s.words, d).None?
    ensures var r := QuizSessionCommand(s, sender, now, d);
      && SessionActive(r.state, sender.id)
      && r.state.currentQuiz == s.currentQuiz
      && r.replies == [SessionStarted, NotEnoughWords]
  {
  }

  /**
   A session start whose first quiz can be built stores that quiz in the
   sender's slot, sends it, and leaves the session active.
   */
  lemma SuccessfulSessionStartAsksFirstQuestion(s: BotState, sender: Sender, now: Timestamp, d: QuizDraws)
    requires !SessionActive(s, sender.id) && GenerateQuiz(s.words, d).Some?
    ensures var q := GenerateQuiz(s.words, d).value;
      var r := QuizSessionCommand(s, sender, now, d);
      && SessionActive(r.state, sender.id)
      && r.state.currentQuiz[sender.id] == q
      && r.replies == [SessionStarted, Question(q)]
      && WellFormedQuiz(q)
  {
    GeneratedQuizRoundTrip(s.words, d, 0);
  }

  /** `/stop` ends a session: the next `/quiz_session` is accepted again. */
  lemma StopThenStartAccepted(s: BotState, sender: Sender, now: Timestamp, d: QuizDraws)
    ensures var stopped := StopCommand(s, sender).state;
      QuizSessionCommand(stopped, sender, now, d).replies[0] == SessionStarted
  {
  }

  /**
   An answer is always judged against the quiz most recently stored for
   the sender: after `/quiz` stores `q`, an answer `i` is correct exactly
   when `i` is `q`'s recorded index, and it is counted against `q`'s word.
   In particular answering the recorded index is a correct answer.
   */
  lemma AnswerJudgedAgainstLatestQuiz(s: BotState, sender: Sender, d: QuizDraws,
                                      i: int, now: Timestamp, d': QuizDraws)
    requires GenerateQuiz(s.words, d).Some?
    ensures var q := GenerateQuiz(s.words, d).value;
      var stored := QuizCommand(s, sender, d).state;
      WellFormedQuiz(q) &&
      var r := AnswerCallback(stored, sender, i, now, d');
      && r.replies[0].Verdict?
      && (r.replies[0].isCorrect <==> i == q.correctIndex)
      && r.state.stats == RecordAnswer(s.stats, sender.id, q.wordId, i == q.correctIndex, now)
      && AnswerCallback(stored, sender, q.correctIndex, now, d').replies[0].isCorrect
  {
    GeneratedQuizRoundTrip(s.words, d, i);
  }

  /**
   Every answer counts exactly one more question in the sender's aggregate
   (one more correct answer when it was correct) and leaves other users'
   aggregates alone; the verdict reports the updated aggregate.
   */
  lemma AnswerCountsOnce(s: BotState, sender: Sender, i: int, now: Timestamp, d: QuizDraws)
    requires sender.id in s.currentQuiz && WellFormedQuiz(s.currentQuiz[sender.id])
    ensures var q := s.currentQuiz[sender.id];
      var before := GetUserStats(s.stats, sender.id);
      var r := AnswerCallback(s, sender, i, now, d);
      && r.replies[0].summary.totalQuestions == before.totalQuestions + 1
      && r.replies[0].summary.totalCorrect == before.totalCorrect + Bump(CheckAnswer(q, i))
      && forall v :: v != sender.id ==> GetUserStats(r.state.stats, v) == GetUserStats(s.stats, v)
  {
    var q := s.currentQuiz[sender.id];
    RecordAnswerUpdatesUserStats(s.stats, sender.id, q.wordId, CheckAnswer(q, i), now);
  }

  /**
   After an answer the sender's slot is empty, unless a session is active
   and the next quiz could be built, in which case it holds that quiz; the
   session flag is not changed either way.
   */
  lemma AnswerAdvancesSession(s: BotState, sender: Sender, i: int, now: Timestamp, d: QuizDraws)
    requires sender.id in s.currentQuiz && WellFormedQuiz(s.currentQuiz[sender.id])
    ensures var r := AnswerCallback(s, sender, i, now, d);
      && (SessionActive(r.state, sender.id) <==> SessionActive(s, sender.id))
      && (sender.id in r.state.currentQuiz <==> SessionActive(s, sender.id) && GenerateQuiz(s.words, d).Some?)
      && (sender.id in r.state.currentQuiz ==> r.state.currentQuiz[sender.id] == GenerateQuiz(s.words, d).value)
  {
  }

  // ---------------------------------------------------------------------------
  // The invariant over any sequence of updates
  // ---------------------------------------------------------------------------

  datatype Event =
    | QuizCmd(sender: Sender, draws: QuizDraws)
    | SessionCmd(sender: Sender, now: Timestamp, draws: QuizDraws)
    | StopCmd(sender: Sender)
    | AnswerCb(sender: Sender, answerIndex: int, now: Timestamp, draws: QuizDraws)

  function Handle(s: BotState, e: Event): (r: Step)
    requires Valid(s)
    ensures Valid(r.state)
    ensures r.state.words == s.words
  {
    match e
    case QuizCmd(sender, d) =>
      QuizCommandPreservesValid(s, sender, d);
      QuizCommand(s, sender, d)
    case SessionCmd(sender, now, d) =>
      if SessionActive(s, sender.id) then QuizSessionCommand(s, sender, now, d)
      else
        QuizCommandPreservesValid(Enrol(s, sender, now), sender, d);
        QuizSessionCommand(s, sender, now, d)
    case StopCmd(sender) => StopCommand(s, sender)
    case AnswerCb(sender, i, now, d) =>
      AnswerPreservesValid(s, sender, i, now, d);
      AnswerCallback(s, sender, i, now, d)
  }

  lemma QuizCommandPreservesValid(s: BotState, sender: Sender, d: QuizDraws)
    requires Valid(s)
    ensures Valid(QuizCommand(s, sender, d).state)
  {
    if GenerateQuiz(s.words, d).Some? {
      GeneratedQuizRoundTrip(s.words, d, 0);
    }
  }

  lemma AnswerPreservesValid(s: BotState, sender: Sender, i: int, now: Timestamp, d: QuizDraws)
    requires Valid(s)
    ensures Valid(AnswerCallback(s, sender, i, now, d).state)
  {
    if sender.id in s.currentQuiz {
      var q := s.currentQuiz[sender.id];
      var isCorrect := CheckAnswer(q, i);
      var stats := RecordAnswer(s.stats, sender.id, q.wordId, isCorrect, now);
      RecordAnswerPreservesWellFormed(s.stats, sender.id, q.wordId, isCorrect, now);
      var verdict := Verdict(isCorrect, if isCorrect then None else Some(q.answers[q.correctIndex]),
                             GetUserStats(stats, sender.id));
      var answered := s.(stats := stats, currentQuiz := s.currentQuiz - {sender.id});
      assert Valid(answered);
      assert AnswerCallback(s, sender, i, now, d) == Continue(answered, sender.id, verdict, d);
      ContinuePreservesValid(answered, sender.id, verdict, d);
    }
  }

  lemma ContinuePreservesValid(s: BotState, userId: UserId, verdict: Reply, d: QuizDraws)
    requires Valid(s) && userId !in s.currentQuiz
    ensures Valid(Continue(s, userId, verdict, d).state)
  {
    if GenerateQuiz(s.words, d).Some? {
      GeneratedQuizRoundTrip(s.words, d, 0);
    }
  }

  /** The state after a sequence of updates. */
  function Run(s: BotState, events: seq<Event>): (r: BotState)
    requires Valid(s)
    ensures Valid(r)
    ensures r.words == s.words
    decreases |events|
  {
    if |events| == 0 then s
    else Run(Handle(s, events[0]).state, events[1..])
  }

  /**
   Whatever the handlers are asked to do, every `user_stats` row keeps
   `0 <= correct_answers <= total_answers` and its key stays unique.
   */
  lemma CountersStayConsistent(s: BotState, events: seq<Event>)
    requires Valid(s)
    ensures StatsWellFormed(Run(s, events).stats)
  {
  }
}

=== FILE: quiz_service.dfy ===
/**
 Quiz composition and answer checking: pick a row of `words`, fetch three
 wrong answers, choose a direction, shuffle the four options and record
 where the correct one landed.
 */
module QuizService {
  import opened Wrappers
  import opened Schema
  import opened Sampling
  import WrongAnswers

  /** The fields `select_random_word` copies out of the chosen row. */
  datatype SelectedWord = SelectedWord(id: WordId, greek: string, russian: string, wordType: WordType)

  datatype Direction = GreekToRussian | RussianToGreek

  datatype Quiz = Quiz(
    wordId: WordId,
    question: string,
    answers: seq<string>,
    correctIndex: int,
    direction: Direction,
    wordType: WordType)

  /** Every random choice one `generate_quiz` call makes. */
  datatype QuizDraws = QuizDraws(
    word: seq<nat>,
    wrongAnswers: seq<nat>,
    greekToRussian: bool,
    greekWrongAnswers: seq<nat>,
    shuffle: seq<nat>)

  /** The number of wrong answers a quiz asks for. */
  const WrongAnswerCount: int := 3

  function Selected(w: Word): SelectedWord {
    SelectedWord(w.id, w.greek, w.russian, w.wordType)
  }

  /** `SELECT * FROM words ORDER BY RANDOM() LIMIT 1`. */
  function SelectRandomWord(words: seq<Word>, draws: seq<nat>): (r: Option<SelectedWord>)
    ensures r.None? <==> |words| == 0
    ensures r.Some? ==> exists w :: w in words && r.value == Selected(w)
  {
    var rows := Select(words, draws, 1);
    if |rows| == 0 then None
    else
      assert rows[0] in words;
      Some(Selected(rows[0]))
  }

  /** Every row of the table can be the one selected. */
  lemma SelectRandomWordReachesEveryRow(words: seq<Word>, w: Word) returns (draws: seq<nat>)
    requires w in words
    ensures SelectRandomWord(words, draws) == Some(Selected(w))
  {
    assert multiset([w]) <= multiset(words);
    draws := SelectReachesEverySelection(words, 1, [w]);
  }

  /** `xs.index(x)`: the first position of `x`. */
  function IndexOf(xs: seq<string>, x: string): (i: nat)
    requires x in xs
    ensures i < |xs| && xs[i] == x
    ensures forall j :: 0 <= j < i ==> xs[j] != x
  {
    if xs[0] == x then 0 else 1 + IndexOf(xs[1..], x)
  }

  /** The text the prompt shows and the text that answers it, for a direction. */
  function QuestionText(w: SelectedWord, greekToRussian: bool): string {
    if greekToRussian then w.greek else w.russian
  }

  function CorrectText(w: SelectedWord, greekToRussian: bool): string {
    if greekToRussian then w.russian else w.greek
  }

  /** The Greek wrong answers the Russian-to-Greek direction fetches afresh. */
  function GreekWrongAnswers(words: seq<Word>, w: SelectedWord, draws: seq<nat>): (r: seq<string>)
    ensures |r| == RowCount(WrongAnswerCount, |WrongAnswers.WordPool(words, w.id, w.wordType)|)
    ensures forall i :: 0 <= i < |r| ==> WrongAnswers.GreekOfOtherWord(r[i], words, w.id, w.wordType)
    ensures exists rows :: multiset(rows) <= multiset(WrongAnswers.WordPool(words, w.id, w.wordType))
                        && r == WrongAnswers.Greeks(rows)
  {
    var pool := WrongAnswers.WordPool(words, w.id, w.wordType);
    var rows := Select(pool, draws, WrongAnswerCount);
    assert forall i :: 0 <= i < |rows| ==> rows[i] in pool;
    WrongAnswers.Greeks(rows)
  }

  /** Every duplicate-free choice of three eligible rows is a possible Greek refetch. */
  lemma GreekWrongAnswersReachEverySelection(words: seq<Word>, w: SelectedWord, rows: seq<Word>)
    returns (draws: seq<nat>)
    requires multiset(rows) <= multiset(WrongAnswers.WordPool(words, w.id, w.wordType))
    requires |rows| == RowCount(WrongAnswerCount, |WrongAnswers.WordPool(words, w.id, w.wordType)|)
    ensures GreekWrongAnswers(words, w, draws) == WrongAnswers.Greeks(rows)
  {
    draws := SelectReachesEverySelection(WrongAnswers.WordPool(words, w.id, w.wordType), WrongAnswerCount, rows);
  }

  /**
   The quiz built from a selected word, a direction and its wrong answers:
   the options are a shuffle of the correct text followed by the wrong ones,
   and the recorded index is the first position of the correct text.
   */
  function Compose(w: SelectedWord, greekToRussian: bool, wrong: seq<string>,
                   shuffle: seq<nat>): (q: Quiz)
    ensures q.wordId == w.id && q.wordType == w.wordType
    ensures q.direction == (if greekToRussian then GreekToRussian else RussianToGreek)
    ensures multiset(q.answers) == multiset([CorrectText(w, greekToRussian)] + wrong)
    ensures |q.answers| == 1 + |wrong|
    ensures 0 <= q.correctIndex < |q.answers|
    ensures q.answers[q.correctIndex] == CorrectText(w, greekToRussian)
    ensures forall j :: 0 <= j < q.correctIndex ==> q.answers[j] != CorrectText(w, greekToRussian)
  {
    var correct := CorrectText(w, greekToRussian);
    var all := [correct] + wrong;
    var answers := Shuffle(all, shuffle);
    assert correct in multiset(answers);
    Quiz(w.id, QuestionText(w, greekToRussian), answers, IndexOf(answers, correct),
         if greekToRussian then GreekToRussian else RussianToGreek, w.wordType)
  }

  /**
   `generate_quiz`: a quiz, when one is built, is about a row of the table
   and records an index into its own options.
   */
  function GenerateQuiz(words: seq<Word>, d: QuizDraws): (r: Option<Quiz>)
    ensures r.Some? ==> WellFormedQuiz(r.value)
    ensures r.Some? ==> exists v :: v in words && r.value.wordId == v.id && r.value.wordType == v.wordType
  {
    match SelectRandomWord(words, d.word)
    case None => None
    case Some(w) =>
      var wrong := WrongAnswers.Generate(words, w.id, w.wordType, w.russian, WrongAnswerCount, d.wrongAnswers);
      if |wrong| < WrongAnswerCount then None
      else if d.greekToRussian then Some(Compose(w, true, wrong, d.shuffle))
      else Some(Compose(w, false, GreekWrongAnswers(words, w, d.greekWrongAnswers), d.shuffle))
  }

  /**
   `check_answer`: an accepted index lies among the options and shows the
   recorded correct text; an index outside the options is never accepted.
   */
  function CheckAnswer(q: Quiz, answerIndex: int): (r: bool)
    ensures WellFormedQuiz(q) && r ==>
      0 <= answerIndex < |q.answers| && q.answers[answerIndex] == q.answers[q.correctIndex]
    ensures WellFormedQuiz(q) && !(0 <= answerIndex < |q.answers|) ==> !r
  {
    answerIndex == q.correctIndex
  }

  /** A quiz whose recorded index points into its options. */
  predicate WellFormedQuiz(q: Quiz) {
    0 <= q.correctIndex < |q.answers|
  }

  // ---------------------------------------------------------------------------
  // Properties of generate_quiz and check_answer
  // ---------------------------------------------------------------------------

  /**
   Composition fails exactly when the table is empty or the selected word
   gets fewer than three wrong answers.
   */
  lemma GenerateQuizFailsWhen(words: seq<Word>, d: QuizDraws)
    ensures var sel := SelectRandomWord(words, d.word);
      GenerateQuiz(words, d).None? <==>
        || |words| == 0
        || |WrongAnswers.Generate(words, sel.value.id, sel.value.wordType, sel.value.russian,
                                  WrongAnswerCount, d.wrongAnswers)| < 3
  {
  }

  /**
   A generated quiz belongs to a row of the table, carries its id and type,
   and its prompt, correct option and wrong options follow the direction:
   Greek-to-Russian asks the Greek text and offers Russian ones,
   Russian-to-Greek asks the Russian text and offers Greek texts of other
   words of the same type.
   */
  lemma GeneratedQuizFollowsDirection(words: seq<Word>, d: QuizDraws)
    requires GenerateQuiz(words, d).Some?
    ensures var q := GenerateQuiz(words, d).value;
      var w := SelectRandomWord(words, d.word).value;
      var wrong := WrongAnswers.Generate(words, w.id, w.wordType, w.russian, WrongAnswerCount, d.wrongAnswers);
      && (exists v :: v in words && w == Selected(v))
      && q.wordId == w.id && q.wordType == w.wordType
      && (d.greekToRussian ==>
            && q.direction == GreekToRussian && q.question == w.greek
            && q.answers[q.correctIndex] == w.russian
            && multiset(q.answers) == multiset([w.russian] + wrong))
      && (!d.greekToRussian ==>
            && q.direction == RussianToGreek && q.question == w.russian
            && q.answers[q.correctIndex] == w.greek
            && multiset(q.answers) == multiset([w.greek] + GreekWrongAnswers(words, w, d.greekWrongAnswers)))
  {
  }

  /**
   Over an unchanged table with unique ids, every generated quiz has exactly
   four options, in both directions: the Greek refetch uses a filter at
   least as wide as the one that already produced three wrong answers.
   */
  lemma {:induction false} GeneratedQuizHasFourOptions(words: seq<Word>, d: QuizDraws)
    requires UniqueWordIds(words)
    requires GenerateQuiz(words, d).Some?
    ensures |GenerateQuiz(words, d).value.answers| == 4
  {
    var w := SelectRandomWord(words, d.word).value;
    var v :| v in words && w == Selected(v);
    var wrong := WrongAnswers.Generate(words, w.id, w.wordType, w.russian, WrongAnswerCount, d.wrongAnswers);
    if d.greekToRussian {
      assert GenerateQuiz(words, d) == Some(Compose(w, true, wrong, d.shuffle));
    } else {
      var greek := GreekWrongAnswers(words, w, d.greekWrongAnswers);
      assert GenerateQuiz(words, d) == Some(Compose(w, false, greek, d.shuffle));
      GreekRefetchSuffices(words, v, d.wrongAnswers, d.greekWrongAnswers);
    }
  }

  /**
   When the first distractor query found three rows, the Greek refetch for
   the same row finds three too.
   */
  lemma GreekRefetchSuffices(words: seq<Word>, v: Word, wrongDraws: seq<nat>, greekDraws: seq<nat>)
    requires UniqueWordIds(words) && v in words
    requires |WrongAnswers.Generate(words, v.id, v.wordType, v.russian, WrongAnswerCount, wrongDraws)| >= 3
    ensures |GreekWrongAnswers(words, Selected(v), greekDraws)| == 3
  {
    if v.wordType == Phrase {
      WrongAnswers.PhrasePoolWithinWordPool(words, v);
    }
  }

  /**
   Answer checking against a quiz whose recorded index is the first
   position of its correct text `c`: an index is accepted exactly when it
   holds `c` and no earlier option does. In particular the recorded index is
   accepted, and a distractor that repeats `c` later in the list is not.
   */
  lemma CheckAnswerByText(q: Quiz, c: string, i: int)
    requires 0 <= q.correctIndex < |q.answers| && q.answers[q.correctIndex] == c
    requires forall j :: 0 <= j < q.correctIndex ==> q.answers[j] != c
    ensures CheckAnswer(q, q.correctIndex)
    ensures CheckAnswer(q, i) <==>
      (0 <= i < |q.answers| && q.answers[i] == c && forall j :: 0 <= j < i ==> q.answers[j] != c)
  {
  }

  /** Round trip: a generated quiz accepts its own recorded index and no other. */
  lemma GeneratedQuizRoundTrip(words: seq<Word>, d: QuizDraws, i: int)
    requires GenerateQuiz(words, d).Some?
    ensures var q := GenerateQuiz(words, d).value;
      && WellFormedQuiz(q)
      && CheckAnswer(q, q.correctIndex)
      && (CheckAnswer(q, i) <==> i == q.correctIndex)
  {
  }
}

=== FILE: sampling.dfy ===
/**
 The two sources of randomness the quiz pipeline uses, modelled as functions
 of an explicit sequence of draws: SQLite's `ORDER BY RANDOM() LIMIT n`
 (a duplicate-free choice of rows, in any order) and Python's
 `random.shuffle` (a permutation). Draw `k` picks the element at position
 `draws[k] % |remaining|` of what is left of the pool; a missing draw is 0.
 Every choice of draws gives a valid selection, and every valid selection is
 given by some choice of draws, so nothing about the distribution is assumed.
 */
module Sampling {

  function Min(a: nat, b: nat): nat {
    if a <= b then a else b
  }

  /** The rows `... WHERE p ...` admits, in table order. */
  function Filter<T>(s: seq<T>, p: T -> bool): (r: seq<T>)
    ensures |r| <= |s|
    ensures forall i :: 0 <= i < |r| ==> r[i] in s && p(r[i])
    ensures forall i :: 0 <= i < |s| && p(s[i]) ==> s[i] in r
    ensures multiset(r) <= multiset(s)
  {
    if |s| == 0 then []
    else
      assert s == [s[0]] + s[1..];
      if p(s[0]) then [s[0]] + Filter(s[1..], p)
    else Filter(s[1..], p)
  }

  /** A weaker filter admits at least as many rows. */
  lemma {:induction false} FilterMonotone<T>(s: seq<T>, p: T -> bool, q: T -> bool)
    requires forall i :: 0 <= i < |s| && p(s[i]) ==> q(s[i])
    ensures |Filter(s, p)| <= |Filter(s, q)|
  {
    if |s| > 0 {
      FilterMonotone(s[1..], p, q);
    }
  }

  /**
   The number of rows `LIMIT count` lets through when `available` rows
   qualify. SQLite reads a negative limit as "no limit".
   */
  function RowCount(count: int, available: nat): (n: nat)
    ensures n <= available
    ensures count >= 0 ==> n <= count
    ensures n < available ==> n == count
  {
    if count < 0 then available else Min(count, available)
  }

  function Head(draws: seq<nat>): nat {
    if |draws| == 0 then 0 else draws[0]
  }

  function Tail(draws: seq<nat>): seq<nat> {
    if |draws| == 0 then [] else draws[1..]
  }

  function RemoveAt<T>(s: seq<T>, i: nat): (r: seq<T>)
    requires i < |s|
    ensures |r| == |s| - 1
    ensures multiset(r) + multiset{s[i]} == multiset(s)
  {
    assert s == s[..i] + [s[i]] + s[i+1..];
    s[..i] + s[i+1..]
  }

  /** `n` elements drawn from `pool` without replacement. */
  function Draw<T>(pool: seq<T>, draws: seq<nat>, n: nat): (r: seq<T>)
    ensures |r| == Min(n, |pool|)
    ensures multiset(r) <= multiset(pool)
    decreases n
  {
    if n == 0 || |pool| == 0 then []
    else
      var i := Head(draws) % |pool|;
      [pool[i]] + Draw(RemoveAt(pool, i), Tail(draws), n - 1)
  }

  /** `ORDER BY RANDOM() LIMIT count` over the qualifying rows `pool`. */
  function Select<T>(pool: seq<T>, draws: seq<nat>, count: int): (r: seq<T>)
    ensures |r| == RowCount(count, |pool|)
    ensures multiset(r) <= multiset(pool)
    ensures forall i :: 0 <= i < |r| ==> r[i] in pool
  {
    var r := Draw(pool, draws, RowCount(count, |pool|));
    assert forall i :: 0 <= i < |r| ==> r[i] in multiset(r);
    r
  }

  /** `random.shuffle`: a reordering of `xs`. */
  function Shuffle<T>(xs: seq<T>, draws: seq<nat>): (r: seq<T>)
    ensures |r| == |xs|
    ensures multiset(r) == multiset(xs)
  {
    var r := Draw(xs, draws, |xs|);
    SubMultisetOfSameSize(multiset(r), multiset(xs));
    r
  }

  lemma SubMultisetOfSameSize<T>(a: multiset<T>, b: multiset<T>)
    requires a <= b && |a| == |b|
    ensures a == b
  {
    assert b == a + (b - a);
    assert |b - a| == 0;
  }

  /** Drawing with a first draw `i` takes `pool[i]` first. */
  lemma DrawFirst<T>(pool: seq<T>, i: nat, d: seq<nat>, n: nat)
    requires i < |pool|
    ensures Draw(pool, [i] + d, n + 1) == [pool[i]] + Draw(RemoveAt(pool, i), d, n)
  {
    assert Head([i] + d) % |pool| == i;
    assert Tail([i] + d) == d;
  }

  lemma SubMultisetAfterRemoval<T>(pool: seq<T>, i: nat, sel: seq<T>)
    requires i < |pool| && |sel| > 0 && pool[i] == sel[0]
    requires multiset(sel) <= multiset(pool)
    ensures multiset(sel[1..]) <= multiset(RemoveAt(pool, i))
  {
    var rest := RemoveAt(pool, i);
    assert sel == [sel[0]] + sel[1..];
    assert multiset(sel) == multiset{sel[0]} + multiset(sel[1..]);
    forall x
      ensures multiset(sel[1..])[x] <= multiset(rest)[x]
    {
      assert multiset(sel)[x] <= multiset(pool)[x];
      assert multiset(pool)[x] == multiset(rest)[x] + multiset{sel[0]}[x];
    }
  }

  lemma ConsTail<T>(s: seq<T>)
    requires |s| > 0
    ensures s == [s[0]] + s[1..] && |s[1..]| + 1 == |s|
  {
  }

  /** The position in `pool` of the first element of a selection from it. */
  lemma IndexOfMember<T>(pool: seq<T>, sel: seq<T>) returns (i: nat)
    requires |sel| > 0 && multiset(sel) <= multiset(pool)
    ensures i < |pool| && pool[i] == sel[0]
  {
    assert sel[0] in multiset(sel);
    assert sel[0] in pool;
    i :| 0 <= i < |pool| && pool[i] == sel[0];
  }

  /**
   Completeness of the model: every duplicate-free choice of `|sel|`
   elements of `pool`, in any order, is the outcome of some draws.
   */
  lemma {:induction false} DrawReachesEverySelection<T>(pool: seq<T>, sel: seq<T>)
    returns (draws: seq<nat>)
    requires multiset(sel) <= multiset(pool)
    ensures Draw(pool, draws, |sel|) == sel
    decreases |sel|
  {
    if |sel| == 0 {
      draws := [];
    } else {
      var i := IndexOfMember(pool, sel);
      SubMultisetAfterRemoval(pool, i, sel);
      var d := DrawReachesEverySelection(RemoveAt(pool, i), sel[1..]);
      DrawFirst(pool, i, d, |sel[1..]|);
      ConsTail(sel);
      draws := [i] + d;
    }
  }

  /** Every permutation of `xs` is a possible outcome of the shuffle. */
  lemma ShuffleReachesEveryPermutation<T>(xs: seq<T>, perm: seq<T>)
    returns (draws: seq<nat>)
    requires multiset(perm) == multiset(xs)
    ensures Shuffle(xs, draws) == perm
  {
    assert |perm| == |multiset(perm)| == |multiset(xs)| == |xs|;
    draws := DrawReachesEverySelection(xs, perm);
  }

  /**
   Every duplicate-free choice of rows of the size `LIMIT count` prescribes
   is a possible outcome of the query.
   */
  lemma SelectReachesEverySelection<T>(pool: seq<T>, count: int, sel: seq<T>)
    returns (draws: seq<nat>)
    requires multiset(sel) <= multiset(pool)
    requires |sel| == RowCount(count, |pool|)
    ensures Select(pool, draws, count) == sel
  {
    draws := DrawReachesEverySelection(pool, sel);
  }

  /** The projection of a column: `[row[col] for row in rows]`. */
  function Column<T, U>(rows: seq<T>, f: T -> U): (r: seq<U>)
    ensures |r| == |rows|
    ensures forall i :: 0 <= i < |rows| ==> r[i] == f(rows[i])
  {
    seq(|rows|, i requires 0 <= i < |rows| => f(rows[i]))
  }
}

=== FILE: schema.dfy ===
/**
 The tables of the bot's SQLite database, as immutable Dafny values:
 the enumerations of the CHECK constraints, one datatype per table row,
 the column defaults, and the uniqueness keys as well-formedness predicates.
 */
module Schema {
  import opened Wrappers

  type UserId = int
  type WordId = int
  /** A point in time; the model never inspects it. */
  type Timestamp = int

  // ---------------------------------------------------------------------------
  // Enumerations (CHECK ... IN (...) constraints)
  // ---------------------------------------------------------------------------

  datatype WordType =
    | Noun | Verb | Adjective | Adverb | Pronoun | Preposition | Conjunction | Phrase

  datatype ChatType = Private | Group | Supergroup

  datatype TaskType = Conjugation | Translation | Vocabulary | Custom

  /** The text stored in the `word_type` column for each tag. */
  function WordTypeName(t: WordType): string {
    match t
    case Noun => "noun"
    case Verb => "verb"
    case Adjective => "adjective"
    case Adverb => "adverb"
    case Pronoun => "pronoun"
    case Preposition => "preposition"
    case Conjunction => "conjunction"
    case Phrase => "phrase"
  }

  /** The CHECK constraint on `word_type`: a text is admitted exactly when it parses. */
  function ParseWordType(s: string): (r: Option<WordType>)
    ensures r.Some? ==> WordTypeName(r.value) == s
  {
    if s == "noun" then Some(Noun)
    else if s == "verb" then Some(Verb)
    else if s == "adjective" then Some(Adjective)
    else if s == "adverb" then Some(Adverb)
    else if s == "pronoun" then Some(Pronoun)
    else if s == "preposition" then Some(Preposition)
    else if s == "conjunction" then Some(Conjunction)
    else if s == "phrase" then Some(Phrase)
    else None
  }

  lemma WordTypeRoundTrip(t: WordType)
    ensures ParseWordType(WordTypeName(t)) == Some(t)
  {
  }

  function ChatTypeName(t: ChatType): string {
    match t
    case Private => "private"
    case Group => "group"
    case Supergroup => "supergroup"
  }

  function ParseChatType(s: string): (r: Option<ChatType>)
    ensures r.Some? ==> ChatTypeName(r.value) == s
  {
    if s == "private" then Some(Private)
    else if s == "group" then Some(Group)
    else if s == "supergroup" then Some(Supergroup)
    else None
  }

  lemma ChatTypeRoundTrip(t: ChatType)
    ensures ParseChatType(ChatTypeName(t)) == Some(t)
  {
  }

  function TaskTypeName(t: TaskType): string {
    match t
    case Conjugation => "conjugation"
    case Translation => "translation"
    case Vocabulary => "vocabulary"
    case Custom => "custom"
  }

  function ParseTaskType(s: string): (r: Option<TaskType>)
    ensures r.Some? ==> TaskTypeName(r.value) == s
  {
    if s == "conjugation" then Some(Conjugation)
    else if s == "translation" then Some(Translation)
    else if s == "vocabulary" then Some(Vocabulary)
    else if s == "custom" then Some(Custom)
    else None
  }

  lemma TaskTypeRoundTrip(t: TaskType)
    ensures ParseTaskType(TaskTypeName(t)) == Some(t)
  {
  }

  // ---------------------------------------------------------------------------
  // Rows
  // ---------------------------------------------------------------------------

  /** A row of `words`. */
  datatype Word = Word(
    id: WordId,
    greek: string,
    russian: string,
    wordType: WordType,
    createdAt: Timestamp,
    createdBy: Option<UserId>)

  /** A row of `users`; the table is keyed by `user_id`, so it is a map from it. */
  datatype User = User(
    username: Option<string>,
    firstName: Option<string>,
    quizSessionActive: bool,
    autoQuizEnabled: bool,
    questionsPerSession: int,
    sessionIntervalMinutes: int,
    lastAutoQuiz: Option<Timestamp>,
    joinedAt: Timestamp)

  /** A row of `user_stats` (its surrogate `id` column is never read and is not modelled). */
  datatype StatRow = StatRow(
    userId: UserId,
    wordId: WordId,
    correctAnswers: int,
    totalAnswers: int,
    lastAsked: Option<Timestamp>,
    difficultyMultiplier: real)

  /** A row of `chat_contexts`; `topic_id` and `task_type` are nullable. */
  datatype ChatContext = ChatContext(
    chatId: int,
    chatType: ChatType,
    topicId: Option<int>,
    enabled: bool,
    taskType: Option<TaskType>,
    scheduleIntervalMinutes: int,
    lastPosted: Option<Timestamp>,
    createdAt: Timestamp)

  // ---------------------------------------------------------------------------
  // Column defaults
  // ---------------------------------------------------------------------------

  const DefaultQuizSessionActive: bool := false
  const DefaultAutoQuizEnabled: bool := true
  const DefaultQuestionsPerSession: int := 5
  const DefaultSessionIntervalMinutes: int := 15
  const DefaultCounter: int := 0
  const DefaultDifficultyMultiplier: real := 1.0
  const DefaultChatEnabled: bool := true
  const DefaultScheduleIntervalMinutes: int := 30

  /**
   The `users` row an INSERT that names only `user_id`, `username`, `first_name`
   and `quiz_session_active` produces: every other column takes its default,
   `joined_at` being the insertion time.
   */
  function InsertedUser(username: Option<string>, firstName: Option<string>,
                        sessionActive: bool, now: Timestamp): (u: User)
    ensures UserHasDefaults(u)
    ensures u.username == username && u.firstName == firstName
    ensures u.quizSessionActive == sessionActive && u.joinedAt == now
  {
    User(username, firstName, sessionActive, DefaultAutoQuizEnabled,
         DefaultQuestionsPerSession, DefaultSessionIntervalMinutes, None, now)
  }

  /**
   The `users` row an INSERT naming only `user_id`, `username` and
   `first_name` would produce: no session is active and every setting holds
   its default.
   */
  function DefaultUser(username: Option<string>, firstName: Option<string>, now: Timestamp): (u: User)
    ensures !u.quizSessionActive && UserHasDefaults(u)
    ensures u.username == username && u.firstName == firstName && u.joinedAt == now
  {
    InsertedUser(username, firstName, DefaultQuizSessionActive, now)
  }

  /** The settings columns of a `users` row hold their schema defaults. */
  predicate UserHasDefaults(u: User) {
    && u.autoQuizEnabled
    && u.questionsPerSession == 5
    && u.sessionIntervalMinutes == 15
    && u.lastAutoQuiz.None?
  }

  /**
   The `user_stats` row an INSERT that names the key, both counters and
   `last_asked` produces: `difficulty_multiplier` takes its default.
   */
  function InsertedStat(userId: UserId, wordId: WordId, correct: int, total: int,
                        lastAsked: Timestamp): (r: StatRow)
    ensures r.userId == userId && r.wordId == wordId
    ensures r.correctAnswers == correct && r.totalAnswers == total
    ensures r.lastAsked == Some(lastAsked) && r.difficultyMultiplier == 1.0
  {
    StatRow(userId, wordId, correct, total, Some(lastAsked), DefaultDifficultyMultiplier)
  }

  /**
   The `user_stats` row an INSERT naming only the key would produce; the
   code never issues one, but the defaults keep the counter invariant.
   */
  function DefaultStat(userId: UserId, wordId: WordId): (r: StatRow)
    ensures CountersConsistent(r)
    ensures r.correctAnswers == 0 && r.totalAnswers == 0
    ensures r.lastAsked.None? && r.difficultyMultiplier == 1.0
  {
    StatRow(userId, wordId, DefaultCounter, DefaultCounter, None, DefaultDifficultyMultiplier)
  }

  /** The `chat_contexts` row an INSERT naming only the required columns produces. */
  function InsertedChatContext(chatId: int, chatType: ChatType, topicId: Option<int>,
                               taskType: Option<TaskType>, now: Timestamp): (c: ChatContext)
    ensures c.chatId == chatId && c.chatType == chatType && c.topicId == topicId
    ensures c.enabled && c.scheduleIntervalMinutes == 30 && c.lastPosted.None?
    ensures c.taskType == taskType && c.createdAt == now
  {
    ChatContext(chatId, chatType, topicId, DefaultChatEnabled, taskType,
                DefaultScheduleIntervalMinutes, None, now)
  }

  // ---------------------------------------------------------------------------
  // Keys and invariants
  // ---------------------------------------------------------------------------

  /** `words.id` is the primary key. */
  predicate UniqueWordIds(words: seq<Word>) {
    forall i, j :: 0 <= i < j < |words| ==> words[i].id != words[j].id
  }

  /** UNIQUE(user_id, word_id) on `user_stats`. */
  predicate UniqueStatKeys(rows: seq<StatRow>) {
    forall i, j :: 0 <= i < j < |rows| ==>
      (rows[i].userId, rows[i].wordId) != (rows[j].userId, rows[j].wordId)
  }

  /** The counter invariant of one `user_stats` row. */
  predicate CountersConsistent(r: StatRow) {
    0 <= r.correctAnswers <= r.totalAnswers
  }

  predicate StatsWellFormed(rows: seq<StatRow>) {
    && UniqueStatKeys(rows)
    && forall i :: 0 <= i < |rows| ==> CountersConsistent(rows[i])
  }

  /**
   UNIQUE(chat_id, topic_id) on `chat_contexts`. SQLite treats NULLs as
   distinct in a UNIQUE constraint, so only rows with a topic collide.
   */
  predicate UniqueChatContexts(rows: seq<ChatContext>) {
    forall i, j :: 0 <= i < j < |rows| && rows[i].topicId.Some? ==>
      (rows[i].chatId, rows[i].topicId) != (rows[j].chatId, rows[j].topicId)
  }

  /** Two context rows without a topic never violate the key. */
  lemma NullTopicsNeverCollide(a: ChatContext, b: ChatContext)
    requires a.topicId.None? && b.topicId.None?
    ensures UniqueChatContexts([a, b])
  {
  }
}

=== FILE: stats_service.dfy ===
/**
 Per-(user, word) answer counters in `user_stats`, and the per-user
 aggregate that `/stop` and every answer report.
 */
module StatsService {
  import opened Wrappers
  import opened Schema

  function Key(r: StatRow): (UserId, WordId) {
    (r.userId, r.wordId)
  }

  /** The position of the row `SELECT ... WHERE user_id = ? AND word_id = ?` returns first. */
  function FindIndex(rows: seq<StatRow>, userId: UserId, wordId: WordId): (r: Option<nat>)
    ensures r.Some? ==> r.value < |rows| && Key(rows[r.value]) == (userId, wordId)
    ensures r.Some? ==> forall j :: 0 <= j < r.value ==> Key(rows[j]) != (userId, wordId)
    ensures r.None? ==> forall j :: 0 <= j < |rows| ==> Key(rows[j]) != (userId, wordId)
  {
    if |rows| == 0 then None
    else if Key(rows[0]) == (userId, wordId) then Some(0)
    else match FindIndex(rows[1..], userId, wordId)
      case None => None
      case Some(i) => Some(i + 1)
  }

  /** The table read as the map from (user_id, word_id) that its unique key makes it. */
  function FindStat(rows: seq<StatRow>, userId: UserId, wordId: WordId): Option<StatRow> {
    match FindIndex(rows, userId, wordId)
    case None => None
    case Some(i) => Some(rows[i])
  }

  function Bump(isCorrect: bool): int {
    if isCorrect then 1 else 0
  }

  /**
   `record_answer`: increment the pair's counters in place, or insert a row
   with `total_answers = 1` on the pair's first answer.
   */
  function RecordAnswer(rows: seq<StatRow>, userId: UserId, wordId: WordId,
                        isCorrect: bool, now: Timestamp): (r: seq<StatRow>)
    ensures FindStat(r, userId, wordId).Some?
    ensures var s := FindStat(r, userId, wordId).value;
      match FindStat(rows, userId, wordId)
      case None =>
        && s.correctAnswers == Bump(isCorrect) && s.totalAnswers == 1
        && s.difficultyMultiplier == 1.0
      case Some(prev) =>
        && s.correctAnswers == prev.correctAnswers + Bump(isCorrect)
        && s.totalAnswers == prev.totalAnswers + 1
        && s.difficultyMultiplier == prev.difficultyMultiplier
    ensures FindStat(r, userId, wordId).value.lastAsked == Some(now)
    ensures forall u, w :: (u, w) != (userId, wordId) ==> FindStat(r, u, w) == FindStat(rows, u, w)
  {
    match FindIndex(rows, userId, wordId)
    case Some(i) =>
      var r := Incremented(rows, i, isCorrect, now);
      FindIndexAfterUpdate(rows, i, r[i]);
      r
    case None =>
      var r := Inserted(rows, userId, wordId, isCorrect, now);
      FindIndexAfterAppend(rows, r[|rows|]);
      r
  }

  /** The UPDATE branch: the row at `i` counts one more answer. */
  function Incremented(rows: seq<StatRow>, i: nat, isCorrect: bool, now: Timestamp): seq<StatRow>
    requires i < |rows|
  {
    var prev := rows[i];
    rows[i := prev.(correctAnswers := prev.correctAnswers + Bump(isCorrect),
                    totalAnswers := prev.totalAnswers + 1,
                    lastAsked := Some(now))]
  }

  /** The INSERT branch: a first row for the pair. */
  function Inserted(rows: seq<StatRow>, userId: UserId, wordId: WordId, isCorrect: bool,
                    now: Timestamp): seq<StatRow>
  {
    rows + [InsertedStat(userId, wordId, Bump(isCorrect), 1, now)]
  }

  lemma {:induction false} FindIndexAfterUpdate(rows: seq<StatRow>, i: nat, x: StatRow)
    requires i < |rows| && Key(x) == Key(rows[i])
    requires FindIndex(rows, x.userId, x.wordId) == Some(i)
    ensures forall u, w :: FindIndex(rows[i := x], u, w) == FindIndex(rows, u, w)
  {
    forall u, w
      ensures FindIndex(rows[i := x], u, w) == FindIndex(rows, u, w)
    {
      FindIndexUpdateOne(rows, i, x, u, w);
    }
  }

  lemma {:induction false} FindIndexUpdateOne(rows: seq<StatRow>, i: nat, x: StatRow, u: UserId, w: WordId)
    requires i < |rows| && Key(x) == Key(rows[i])
    ensures FindIndex(rows[i := x], u, w) == FindIndex(rows, u, w)
    decreases |rows|
  {
    if i > 0 {
      assert rows[i := x][1..] == rows[1..][i - 1 := x];
      FindIndexUpdateOne(rows[1..], i - 1, x, u, w);
    }
  }

  lemma {:induction false} FindIndexAfterAppend(rows: seq<StatRow>, x: StatRow)
    requires FindIndex(rows, x.userId, x.wordId).None?
    ensures FindIndex(rows + [x], x.userId, x.wordId) == Some(|rows|)
    ensures forall u, w :: (u, w) != Key(x) ==> FindIndex(rows + [x], u, w) == FindIndex(rows, u, w)
  {
    forall u, w
      ensures FindIndex(rows + [x], u, w) == if (u, w) == Key(x) && FindIndex(rows, u, w).None?
                                               then Some(|rows|) else FindIndex(rows, u, w)
    {
      FindIndexAppendOne(rows, x, u, w);
    }
  }

  lemma {:induction false} FindIndexAppendOne(rows: seq<StatRow>, x: StatRow, u: UserId, w: WordId)
    ensures FindIndex(rows + [x], u, w) == if (u, w) == Key(x) && FindIndex(rows, u, w).None?
                                             then Some(|rows|) else FindIndex(rows, u, w)
    decreases |rows|
  {
    if |rows| > 0 {
      assert (rows + [x])[1..] == rows[1..] + [x];
      FindIndexAppendOne(rows[1..], x, u, w);
    }
  }

  /** `record_answer` keeps UNIQUE(user_id, word_id) and `0 <= correct <= total` on every row. */
  lemma RecordAnswerPreservesWellFormed(rows: seq<StatRow>, userId: UserId, wordId: WordId,
                                        isCorrect: bool, now: Timestamp)
    requires StatsWellFormed(rows)
    ensures StatsWellFormed(RecordAnswer(rows, userId, wordId, isCorrect, now))
  {
    var r := RecordAnswer(rows, userId, wordId, isCorrect, now);
    match FindIndex(rows, userId, wordId)
    case Some(i) =>
      assert forall j :: 0 <= j < |r| && j != i ==> r[j] == rows[j];
      assert Key(r[i]) == Key(rows[i]);
    case None =>
      assert r == rows + [r[|rows|]];
  }

  /** One answer event. */
  datatype Answer = Answer(userId: UserId, wordId: WordId, isCorrect: bool, at: Timestamp)

  function RecordAll(rows: seq<StatRow>, answers: seq<Answer>): seq<StatRow>
    decreases |answers|
  {
    if |answers| == 0 then rows
    else
      var a := answers[0];
      RecordAll(RecordAnswer(rows, a.userId, a.wordId, a.isCorrect, a.at), answers[1..])
  }

  /** The counter invariant holds after any sequence of answers. */
  lemma {:induction false} RecordAllPreservesWellFormed(rows: seq<StatRow>, answers: seq<Answer>)
    requires StatsWellFormed(rows)
    ensures StatsWellFormed(RecordAll(rows, answers))
    decreases |answers|
  {
    if |answers| > 0 {
      var a := answers[0];
      RecordAnswerPreservesWellFormed(rows, a.userId, a.wordId, a.isCorrect, a.at);
      RecordAllPreservesWellFormed(RecordAnswer(rows, a.userId, a.wordId, a.isCorrect, a.at), answers[1..]);
    }
  }

  // ---------------------------------------------------------------------------
  // get_user_stats
  // ---------------------------------------------------------------------------

  datatype UserStats = UserStats(totalCorrect: int, totalQuestions: int, successRate: real)

  predicate HasRows(rows: seq<StatRow>, userId: UserId) {
    exists i :: 0 <= i < |rows| && rows[i].userId == userId
  }

  /** `SUM(correct_answers)` and `SUM(total_answers)` over one user's rows. */
  function Totals(rows: seq<StatRow>, userId: UserId): (t: (int, int))
    ensures (forall i :: 0 <= i < |rows| ==> CountersConsistent(rows[i])) ==> 0 <= t.0 <= t.1
    ensures !HasRows(rows, userId) ==> t == (0, 0)
    decreases |rows|
  {
    if |rows| == 0 then (0, 0)
    else
      var front := rows[..|rows| - 1];
      var last := rows[|rows| - 1];
      assert forall i :: 0 <= i < |front| ==> front[i] == rows[i];
      var t := Totals(front, userId);
      if last.userId == userId then (t.0 + last.correctAnswers, t.1 + last.totalAnswers) else t
  }

  /**
   `get_user_stats`: zeros when the user has no rows; otherwise the two sums
   and their percentage (zero when no question was counted).
   */
  function GetUserStats(rows: seq<StatRow>, userId: UserId): (r: UserStats)
    ensures !HasRows(rows, userId) ==> r == UserStats(0, 0, 0.0)
    ensures HasRows(rows, userId) ==> (r.totalCorrect, r.totalQuestions) == Totals(rows, userId)
    ensures r.totalQuestions > 0 ==> r.successRate * (r.totalQuestions as real) == (r.totalCorrect as real) * 100.0
    ensures r.totalQuestions == 0 ==> r.successRate == 0.0
    ensures (forall i :: 0 <= i < |rows| ==> CountersConsistent(rows[i])) ==> 0.0 <= r.successRate <= 100.0
  {
    if !HasRows(rows, userId) then UserStats(0, 0, 0.0)
    else
      var t := Totals(rows, userId);
      UserStats(t.0, t.1, if t.1 > 0 then Percentage(t.0, t.1) else 0.0)
  }

  /** `correct / total * 100`, as an exact ratio. */
  function Percentage(correct: int, total: int): (p: real)
    requires total > 0
    ensures p * (total as real) == (correct as real) * 100.0
    ensures 0 <= correct <= total ==> 0.0 <= p <= 100.0
  {
    var p := (correct as real) / (total as real) * 100.0;
    assert p * (total as real) == (correct as real) * 100.0;
    assert 0 <= correct <= total ==> (correct as real) / (total as real) <= 1.0;
    p
  }

  lemma {:induction false} TotalsAfterUpdate(rows: seq<StatRow>, i: nat, x: StatRow, userId: UserId)
    requires i < |rows| && x.userId == rows[i].userId
    ensures var t, t' := Totals(rows, userId), Totals(rows[i := x], userId);
      if x.userId == userId then
        t' == (t.0 - rows[i].correctAnswers + x.correctAnswers, t.1 - rows[i].totalAnswers + x.totalAnswers)
      else t' == t
    decreases |rows|
  {
    var n := |rows|;
    if i < n - 1 {
      assert rows[i := x][..n - 1] == rows[..n - 1][i := x];
      TotalsAfterUpdate(rows[..n - 1], i, x, userId);
    } else {
      assert rows[i := x][..n - 1] == rows[..n - 1];
    }
  }

  lemma TotalsAfterAppend(rows: seq<StatRow>, x: StatRow, userId: UserId)
    ensures var t := Totals(rows, userId);
      Totals(rows + [x], userId) ==
        if x.userId == userId then (t.0 + x.correctAnswers, t.1 + x.totalAnswers) else t
  {
    assert (rows + [x])[..|rows|] == rows;
  }

  /** How one answer changes the sums and the row set of any user `v`. */
  lemma RecordAnswerTotals(rows: seq<StatRow>, userId: UserId, wordId: WordId,
                           isCorrect: bool, now: Timestamp, v: UserId)
    ensures var r := RecordAnswer(rows, userId, wordId, isCorrect, now);
      var t := Totals(rows, v);
      && Totals(r, v) == (if v == userId then (t.0 + Bump(isCorrect), t.1 + 1) else t)
      && (HasRows(r, v) <==> v == userId || HasRows(rows, v))
  {
    match FindIndex(rows, userId, wordId)
    case Some(i) => IncrementedTotals(rows, i, isCorrect, now, v);
    case None => InsertedTotals(rows, userId, wordId, isCorrect, now, v);
  }

  lemma IncrementedTotals(rows: seq<StatRow>, i: nat, isCorrect: bool, now: Timestamp, v: UserId)
    requires i < |rows|
    ensures var r, t := Incremented(rows, i, isCorrect, now), Totals(rows, v);
      && Totals(r, v) == (if v == rows[i].userId then (t.0 + Bump(isCorrect), t.1 + 1) else t)
      && (HasRows(r, v) <==> v == rows[i].userId || HasRows(rows, v))
  {
    var r := Incremented(rows, i, isCorrect, now);
    TotalsAfterUpdate(rows, i, r[i], v);
    assert forall j :: 0 <= j < |r| ==> r[j].userId == rows[j].userId;
  }

  lemma InsertedTotals(rows: seq<StatRow>, userId: UserId, wordId: WordId, isCorrect: bool,
                       now: Timestamp, v: UserId)
    ensures var r, t := Inserted(rows, userId, wordId, isCorrect, now), Totals(rows, v);
      && Totals(r, v) == (if v == userId then (t.0 + Bump(isCorrect), t.1 + 1) else t)
      && (HasRows(r, v) <==> v == userId || HasRows(rows, v))
  {
    var r := Inserted(rows, userId, wordId, isCorrect, now);
    TotalsAfterAppend(rows, r[|rows|], v);
    assert forall j :: 0 <= j < |rows| ==> r[j] == rows[j];
    assert r[|rows|].userId == userId;
  }

  /**
   After one answer the user's aggregate counts one more question, and one
   more correct answer exactly when the answer was correct; every other
   user's aggregate is unchanged.
   */
  lemma RecordAnswerUpdatesUserStats(rows: seq<StatRow>, userId: UserId, wordId: WordId,
                                     isCorrect: bool, now: Timestamp)
    ensures var before := GetUserStats(rows, userId);
      var after := GetUserStats(RecordAnswer(rows, userId, wordId, isCorrect, now), userId);
      && after.totalQuestions == before.totalQuestions + 1
      && after.totalCorrect == before.totalCorrect + Bump(isCorrect)
    ensures forall v :: v != userId ==>
      GetUserStats(RecordAnswer(rows, userId, wordId, isCorrect, now), v) == GetUserStats(rows, v)
  {
    RecordAnswerTotals(rows, userId, wordId, isCorrect, now, userId);
    forall v | v != userId
      ensures GetUserStats(RecordAnswer(rows, userId, wordId, isCorrect, now), v) == GetUserStats(rows, v)
    {
      RecordAnswerTotals(rows, userId, wordId, isCorrect, now, v);
    }
  }
}

=== FILE: wrappers.dfy ===
/** The optional value the Python code expresses with `None`. */
module Wrappers {

  datatype Option<+T> = None | Some(value: T)
}

=== FILE: wrong_answers.dfy ===
/**
 Distractor selection: the Russian distractor texts of the first query,
 taken from other rows of `words` by one of two filters.
 */
module WrongAnswers {
  import opened Wrappers
  import opened Schema
  import opened Sampling

  /** `WHERE id != correctWordId AND word_type = wordType`. */
  predicate OtherWordOfType(w: Word, correctWordId: WordId, wordType: WordType) {
    w.id != correctWordId && w.wordType == wordType
  }

  /** `WHERE russian != correctPhrase AND word_type = 'phrase'`. */
  predicate OtherPhrase(w: Word, correctPhrase: string) {
    w.russian != correctPhrase && w.wordType == Phrase
  }

  /** `text` is the Russian text of a row the non-phrase filter admits. */
  predicate RussianOfOtherWord(text: string, words: seq<Word>, correctWordId: WordId, wordType: WordType) {
    exists w :: w in words && OtherWordOfType(w, correctWordId, wordType) && w.russian == text
  }

  /** `text` is the Russian text of a row the phrase filter admits. */
  predicate RussianOfOtherPhrase(text: string, words: seq<Word>, correctPhrase: string) {
    exists w :: w in words && OtherPhrase(w, correctPhrase) && w.russian == text
  }

  /** `text` is the Greek text of a row the non-phrase filter admits. */
  predicate GreekOfOtherWord(text: string, words: seq<Word>, correctWordId: WordId, wordType: WordType) {
    exists w :: w in words && OtherWordOfType(w, correctWordId, wordType) && w.greek == text
  }

  function WordPool(words: seq<Word>, correctWordId: WordId, wordType: WordType): seq<Word> {
    Filter(words, w => OtherWordOfType(w, correctWordId, wordType))
  }

  function PhrasePool(words: seq<Word>, correctPhrase: string): seq<Word> {
    Filter(words, w => OtherPhrase(w, correctPhrase))
  }

  function Russians(rows: seq<Word>): (r: seq<string>)
    ensures |r| == |rows|
    ensures forall i :: 0 <= i < |rows| ==> r[i] == rows[i].russian
  {
    Column(rows, (w: Word) => w.russian)
  }

  function Greeks(rows: seq<Word>): (r: seq<string>)
    ensures |r| == |rows|
    ensures forall i :: 0 <= i < |rows| ==> r[i] == rows[i].greek
  {
    Column(rows, (w: Word) => w.greek)
  }

  /** The wrong answers for a non-phrase word: Russian texts of other words of the same type. */
  function ForWord(words: seq<Word>, correctWordId: WordId, wordType: WordType,
                   count: int, draws: seq<nat>): (r: seq<string>)
    ensures |r| == RowCount(count, |WordPool(words, correctWordId, wordType)|)
    ensures forall i :: 0 <= i < |r| ==> RussianOfOtherWord(r[i], words, correctWordId, wordType)
    ensures exists rows :: multiset(rows) <= multiset(WordPool(words, correctWordId, wordType)) && r == Russians(rows)
  {
    var pool := WordPool(words, correctWordId, wordType);
    var rows := Select(pool, draws, count);
    assert forall i :: 0 <= i < |rows| ==> rows[i] in pool;
    Russians(rows)
  }

  /** The wrong answers for a phrase: Russian texts of phrases other than the correct one. */
  function ForPhrase(words: seq<Word>, correctPhrase: string,
                     count: int, draws: seq<nat>): (r: seq<string>)
    ensures |r| == RowCount(count, |PhrasePool(words, correctPhrase)|)
    ensures forall i :: 0 <= i < |r| ==> RussianOfOtherPhrase(r[i], words, correctPhrase)
    ensures correctPhrase !in r
    ensures exists rows :: multiset(rows) <= multiset(PhrasePool(words, correctPhrase)) && r == Russians(rows)
  {
    var pool := PhrasePool(words, correctPhrase);
    var rows := Select(pool, draws, count);
    assert forall i :: 0 <= i < |rows| ==> rows[i] in pool;
    Russians(rows)
  }

  /**
   Every row the phrase filter admits for the text of a phrase row is also
   admitted by the id/type filter for that row, provided ids are unique.
   */
  lemma PhrasePoolWithinWordPool(words: seq<Word>, w: Word)
    requires UniqueWordIds(words) && w in words && w.wordType == Phrase
    ensures |PhrasePool(words, w.russian)| <= |WordPool(words, w.id, Phrase)|
  {
    forall i | 0 <= i < |words| && OtherPhrase(words[i], w.russian)
      ensures OtherWordOfType(words[i], w.id, Phrase)
    {
    }
    FilterMonotone(words, v => OtherPhrase(v, w.russian), v => OtherWordOfType(v, w.id, Phrase));
  }

  /** The number of eligible rows of the filter the dispatch picks. */
  function EligibleCount(words: seq<Word>, wordId: WordId, wordType: WordType,
                         correctAnswer: string): nat
  {
    if wordType == Phrase then |PhrasePool(words, correctAnswer)|
    else |WordPool(words, wordId, wordType)|
  }

  /**
   The dispatch on the word's type: a phrase gets texts of other phrases
   and never its own text; every other type gets texts of other rows of
   that type; and neither path returns more than `count` texts (for a
   non-negative count).
   */
  function Generate(words: seq<Word>, wordId: WordId, wordType: WordType, correctAnswer: string,
                    count: int, draws: seq<nat>): (r: seq<string>)
    ensures count >= 0 ==> |r| <= count
    ensures wordType == Phrase ==>
      && correctAnswer !in r
      && forall i :: 0 <= i < |r| ==> RussianOfOtherPhrase(r[i], words, correctAnswer)
    ensures wordType != Phrase ==>
      forall i :: 0 <= i < |r| ==> RussianOfOtherWord(r[i], words, wordId, wordType)
  {
    if wordType == Phrase then ForPhrase(words, correctAnswer, count, draws)
    else ForWord(words, wordId, wordType, count, draws)
  }

  /**
   A result shorter than `count` means the pool ran out: with a
   non-negative count the length is exactly `min(count, |eligible|)`.
   */
  lemma GenerateLength(words: seq<Word>, wordId: WordId, wordType: WordType,
                       correctAnswer: string, count: int, draws: seq<nat>)
    requires count >= 0
    ensures var r := Generate(words, wordId, wordType, correctAnswer, count, draws);
      var n := EligibleCount(words, wordId, wordType, correctAnswer);
      |r| == Min(count, n) && (|r| < count <==> n < count)
  {
  }

  /** Every duplicate-free choice of eligible same-type rows is a possible outcome. */
  lemma ForWordReachesEverySelection(words: seq<Word>, correctWordId: WordId, wordType: WordType,
                                     count: int, rows: seq<Word>)
    returns (draws: seq<nat>)
    requires multiset(rows) <= multiset(WordPool(words, correctWordId, wordType))
    requires |rows| == RowCount(count, |WordPool(words, correctWordId, wordType)|)
    ensures ForWord(words, correctWordId, wordType, count, draws) == Russians(rows)
  {
    draws := SelectReachesEverySelection(WordPool(words, correctWordId, wordType), count, rows);
  }

  /** Every duplicate-free choice of eligible phrases is a possible outcome. */
  lemma ForPhraseReachesEverySelection(words: seq<Word>, correctPhrase: string,
                                       count: int, rows: seq<Word>)
    returns (draws: seq<nat>)
    requires multiset(rows) <= multiset(PhrasePool(words, correctPhrase))
    requires |rows| == RowCount(count, |PhrasePool(words, correctPhrase)|)
    ensures ForPhrase(words, correctPhrase, count, draws) == Russians(rows)
  {
    draws := SelectReachesEverySelection(PhrasePool(words, correctPhrase), count, rows);
  }

  /**
   The non-phrase filter excludes by id only: a same-type word that shares
   the correct word's Russian text can be offered as a wrong answer.
   */
  lemma ForWordMayRepeatCorrectText()
    ensures var words := [Word(1, "σπίτι", "дом", Noun, 0, None),
                          Word(2, "οίκος", "дом", Noun, 0, None)];
      ForWord(words, 1, Noun, 3, []) == ["дом"]
  {
    var words := [Word(1, "σπίτι", "дом", Noun, 0, None),
                  Word(2, "οίκος", "дом", Noun, 0, None)];
    assert WordPool(words, 1, Noun) == [words[1]];
  }
}
